=== FILE: README.md ===
# STOMP service: a Dafny model

This project models `STOMPService`, the Angular service that connects a browser
client to a message broker over STOMP on a WebSocket. The model covers four
parts of the service:

- **Configure.** It builds the transport client from a configuration record. This
  sets the URL `scheme://host:port/path`, the heartbeats, the reconnect delay and
  an optional debug sink.
- **State machine.** It keeps the connection state
  `CLOSED | TRYING | CONNECTED | DISCONNECTING` in a BehaviorSubject.
- **Transport callbacks.** It reacts to the transport's connect, error and
  disconnect-complete callbacks.
- **Subscriptions and publishing.** Each subscriber of `subscribe(queue)` gets a
  transport subscription on every CONNECTED value. `publish` sends a message.

The transport (stomp.js) and the config loader are not modelled as code. They
appear as events in a trace, and the transport's `connected` flag is an input of
the events that read it.

Modules:

- `Maybe` (maybe.dfy): `Option` for fields that may be `null` or `undefined`, and
  `Result` for operations that throw.
- `Decimal` (decimal.dfy): how a template literal renders the port number, plus
  the parser that inverts it.
- `Configuration` (config.dfy): the `StompConfig` record, `Configure` (the
  client the service builds) and a URL reader, `ParseUrl`, that serves as its
  inverse.
- `StompService` (service.dfy): the `Session` state and one pure function per
  reaction of the service. `Step` and `Run` fold these over a trace of `Event`s.
  - `history` holds every value the state subject has had. Its last element is
    the current value.
  - `calls` logs the calls made into the transport.
  - Each `Observer` is one subscriber of an observable returned by `subscribe`.
- `ServiceProperties` (properties.dfy): the broker's rule. For each subscriber,
  the number of transport subscriptions equals the number of CONNECTED values
  seen since it attached, counting the replayed one.
- `LifecycleProperties` (lifecycle.dfy): the state starts CLOSED. Until the
  configuration arrives, only `disconnect` calls emit anything: one
  DISCONNECTING each. The service configures, then connects, and TRYING is
  emitted once.
- `PublishProperties` (publishing.dfy): the sends are exactly the accepted
  publish requests, in order.
- `UrlExamples`, `Scenarios` (scenarios.dfy): sample URLs and particular runs.

Behaviours of the code worth knowing:

- **Reconnect.** After the transport drops (`on_error` with `connected` false, so
  CLOSED), stomp.js's auto-reconnect calls `on_connect` again. The state then goes
  CLOSED → CONNECTED with no TRYING in between (`Scenarios.ReconnectSkipsTrying`).
- **Resubscribing.** Each CONNECTED value makes every subscriber's filter stack a
  new transport `subscribe`. Nothing unsubscribes the old one. The model counts
  the calls and claims nothing about duplicate delivery.
- **No host or path check.** `configure` does not check host or path. The config
  interface declares both as required strings.
- **Publishing.** `publish` sends in every state. The only failure the service's
  own code raises is a `TypeError` when no client exists yet, i.e. before the
  configuration arrived.
  The model returns this as `Failure(ClientUndefined)`.

## Model

| member | source | states |
|---|---|---|
| Configuration.Scheme | src/app/services/stomp/stomp.service.ts:59-63 | the scheme is `wss` exactly when `ssl` is set and `ws` exactly when it is not |
| Configuration.DebugSinkInstalled | src/app/services/stomp/stomp.service.ts:76 | a debug sink is installed exactly when `debug` is not explicitly `false`; `true`, `null` and `undefined` all install it |
| Configuration.BuildUrl | src/app/services/stomp/stomp.service.ts:59-66 | the URL starts with the scheme `ssl` selects followed by `://` and ends with `/` and the path; its length is that of the scheme, host, port text and path plus the four separators. ParseBuildUrl reads it back |
| Configuration.Configure | src/app/services/stomp/stomp.service.ts:55-77 | the client is created for the built URL; incoming and outgoing heartbeats and the reconnect delay are copied unchanged, absent values included; the debug sink is installed iff `debug` is not `false` |
| Configuration.ParseBuildUrl | src/app/services/stomp/stomp.service.ts:60-66 | the built URL reads back as exactly the configured scheme (from `ssl`), host, port and path, for every host without a colon |
| Configuration.BuildUrlInjective | src/app/services/stomp/stomp.service.ts:66 | for hosts without a colon, two configurations get the same URL only if they agree on TLS, host, port and path |
| Decimal.FromNat | src/app/services/stomp/stomp.service.ts:66 | the interpolated port text is non-empty and made only of digits, with no leading zero except for port 0 |
| Decimal.ToNatFromNat | src/app/services/stomp/stomp.service.ts:66 | reading the interpolated port text back gives the port number |
| Decimal.FromNatInjective | src/app/services/stomp/stomp.service.ts:66 | distinct ports render as distinct texts |
| UrlExamples.SampleSecureUrl | src/app/services/stomp/stomp.service.ts:60-66 | TLS, host `broker.example`, port 61614 and path `ws` give `wss://broker.example:61614/ws` |
| UrlExamples.SamplePlainUrl | src/app/services/stomp/stomp.service.ts:60-66 | the same endpoint without TLS gives `ws://broker.example:61614/ws` |
| StompService.Init | src/app/services/stomp/stomp.service.ts:41-42 | a new service holds CLOSED as its only state value, with no configuration, client, transport call, subscriber, pending callback or error |
| StompService.Emit | src/app/services/stomp/stomp.service.ts:136-143 | `state.next(st)` (called at lines 94, 103, 108, 164 and 179) appends `st` to the history; CONNECTED makes one transport subscribe per attached subscriber in attach order, and any other value makes no call; nothing else changes |
| StompService.EmitSubscribes | src/app/services/stomp/stomp.service.ts:135-143 | an emitted CONNECTED value gives every attached subscriber exactly one new transport subscribe, to its own queue with `ack: auto`, in attach order; any other value makes no call |
| StompService.CountResubscribe | src/app/services/stomp/stomp.service.ts:136-142 | the fan-out on CONNECTED makes exactly one subscribe per attached subscriber and none for anyone else |
| StompService.SetConfig | src/app/services/stomp/stomp.service.ts:55-57 | configuring stores the configuration and the client built from it; it emits nothing and calls nothing on the transport |
| StompService.TryConnect | src/app/services/stomp/stomp.service.ts:83-95 | connecting makes one transport `connect` call with the configured user and password and emits TRYING once |
| StompService.OnConfig | src/app/services/stomp/stomp.service.ts:45-51 | when the configuration arrives the client is built from it, `connect` is called with its credentials and TRYING is emitted; subscribers, pending callbacks and errors are unchanged; a second arrival changes nothing |
| StompService.OnConnect | src/app/services/stomp/stomp.service.ts:159-165 | the connect callback emits CONNECTED, which makes exactly one transport subscribe per attached subscriber, in attach order; configuration, client, subscribers, pending callbacks and errors are unchanged |
| StompService.ErrorText | src/app/services/stomp/stomp.service.ts:170-172 | an error that is a frame reports its body; a plain string reports itself |
| StompService.OnError | src/app/services/stomp/stomp.service.ts:168-181 | the reported text is the frame's body for a structured error and the string itself for a plain one; CLOSED is emitted iff the client is no longer connected; otherwise the state history is unchanged |
| StompService.RequestDisconnect | src/app/services/stomp/stomp.service.ts:100-111 | DISCONNECTING is emitted from any state; a transport disconnect (with a pending completion callback) happens iff a client exists and is connected; otherwise no call is made |
| StompService.DisconnectDone | src/app/services/stomp/stomp.service.ts:107-109 | the disconnect-completion callback emits CLOSED and consumes its pending callback |
| StompService.Publish | src/app/services/stomp/stomp.service.ts:114-116 | publishing fails iff no client exists; otherwise it appends exactly one `send(queue, {}, message)` whatever the state, and changes nothing else |
| StompService.Attach | src/app/services/stomp/stomp.service.ts:119-145 | a new subscriber is recorded at the index of the current value; it is subscribed on the transport at once iff that replayed value is CONNECTED |
| StompService.Deliver | src/app/services/stomp/stomp.service.ts:139-141 | a message on a transport subscription is appended to the messages of exactly the observer that subscription forwards to; all other observers are unchanged |
| ServiceProperties.RunPreservesBroker | src/app/services/stomp/stomp.service.ts:119-145 | every trace preserves the broker invariant: subscriptions target attached observers, each observer's subscribe count equals its CONNECTED count, and messages arrive only after a subscription |
| ServiceProperties.BrokerSubscribesOncePerConnected | src/app/services/stomp/stomp.service.ts:127-143 | from a fresh service, each subscriber's transport subscribe calls number exactly the CONNECTED values from its attach point onward (the replayed one included); each names its queue with `ack: auto`; a subscriber has messages only if it has a subscription |
| ServiceProperties.StepPreservesBroker | src/app/services/stomp/stomp.service.ts:100-181 | every single reaction of the service keeps the broker invariant |
| LifecycleProperties.RunLifecycle | src/app/services/stomp/stomp.service.ts:41-95 | every trace keeps the lifecycle invariant, and a configuration exists iff one was present or one arrived |
| LifecycleProperties.LifecycleFromStart | src/app/services/stomp/stomp.service.ts:41-95 | from a fresh service: the first value is CLOSED; TRYING is emitted exactly once if the configuration arrived and never otherwise; the client is the one the configuration builds; CONNECTED never appears before then |
| LifecycleProperties.QuietUntilConfigured | src/app/services/stomp/stomp.service.ts:41-116 | before the configuration arrives (and while not CONNECTED) no transport call is made, and the only values emitted are one DISCONNECTING per `disconnect` call, appended after the earlier history |
| LifecycleProperties.ConfigureThenConnect | src/app/services/stomp/stomp.service.ts:41-111 | from a fresh service, until the configuration arrives the history is CLOSED followed by one DISCONNECTING per `disconnect` call, with no transport call; the arrival appends exactly TRYING, the only transport call is then `connect(user, pass)`, and the client is built from that configuration |
| PublishProperties.StepSends | src/app/services/stomp/stomp.service.ts:114-116 | one event adds exactly the `send` of the publish it requests, when a client exists, and no other send |
| PublishProperties.RunSends | src/app/services/stomp/stomp.service.ts:114-116 | over any trace, the sends made are exactly the accepted publishes, in order, with their queue, empty headers and message, whatever the state |
| PublishProperties.SendsFromStart | src/app/services/stomp/stomp.service.ts:114-116 | from a fresh service, the sends are exactly the publishes requested after the configuration arrived |
| Scenarios.ReconnectSkipsTrying | src/app/services/stomp/stomp.service.ts:159-181 | a drop followed by the transport's reconnect gives the history CLOSED, TRYING, CONNECTED, CLOSED, CONNECTED; an earlier subscriber then holds two transport subscriptions |
| Scenarios.ErrorWhileConnectedKeepsState | src/app/services/stomp/stomp.service.ts:168-181 | an error while still connected leaves the state CONNECTED and reports the frame's body |
| Scenarios.DisconnectWithoutSessionStaysDisconnecting | src/app/services/stomp/stomp.service.ts:100-111 | `disconnect` without a live session leaves the state at DISCONNECTING and calls nothing; a stray completion changes nothing |
| Scenarios.DisconnectLiveSession | src/app/services/stomp/stomp.service.ts:100-111 | a live session goes CONNECTED, DISCONNECTING, and reaches CLOSED only via the completion callback |
| Scenarios.SubscribeWhileConnectedReceives | src/app/services/stomp/stomp.service.ts:119-145 | a subscriber attached while CONNECTED is subscribed at once and receives the message delivered on that subscription |
| Scenarios.PublishWhileClosedSends | src/app/services/stomp/stomp.service.ts:114-116 | after the connection dropped to CLOSED, `publish` still sends |

## Left out

- The config loader (`getConfig` and its HTTP request) is I/O. Its result is the
  `ConfigArrived` event. A rejected promise is not handled by the service, so it
  has no event.
- The stomp.js transport is not modelled: socket I/O, frame encoding,
  heartbeats, auto-reconnect timing. Only its callbacks (as events) and its
  `connected` flag (as an event input) appear.
- An exception thrown inside a transport call (`connect`, `send`, `subscribe`,
  `disconnect`) is not modelled. The call is recorded as made. For example, a
  `send` while the socket is still connecting counts as a successful publish.
- StompService.TryConnect: transport calls and state values are kept in two
  separate logs, so the order within one reaction is not kept. The source calls
  `connect` before it emits TRYING. Nothing in the model observes both logs.
- StompService.OnConfig: the same separation of logs applies. The order of the
  `connect` call and the TRYING value within the reaction is not kept.
- StompService.RequestDisconnect: the same separation of logs applies. The
  source emits DISCONNECTING before it calls the transport's `disconnect`, and
  the model does not keep that order.
- `console.log` and `console.error` output is left out, and so is what the
  debug sink prints. The model keeps the normalised error text in `errors` and
  records whether a sink is installed.
- A transport callback cannot fire before it is registered, so such events are
  no-ops in the model. The connect and error callbacks are registered by
  `try_connect`. A completion callback is registered only by a transport
  `disconnect`.
- RxJS laziness is left out. `Observable.create` defers the inner subscription
  until someone subscribes. The model merges the `subscribe(queue)` call and
  the subscription into one `SubscribeRequested` event.
- Unsubscribing is not modelled. The function passed to `Observable.create`
  returns no teardown, so a subscriber that leaves keeps its state filter
  attached. The model therefore never removes an observer.
- Error payloads that are `null` are left out. `typeof null` is `'object'`, so
  `on_error(null)` would throw.
- Configuration.ParseBuildUrl: proved only for hosts without a colon. A host
  with a colon, such as a bare IPv6 address, makes the URL ambiguous to split.
- Configuration.BuildUrlInjective: proved only for hosts without a colon. With
  one, distinct configurations can share a URL: host `a`, port 1, path `b:2/c`
  and host `a:1/b`, port 2, path `c` both give `ws://a:1/b:2/c`.
- Ports are modelled as natural numbers. How a template literal prints a
  non-integer, negative or huge number is left out.
- A configuration promise that resolves with `null` or `undefined` makes
  `configure` throw on reading `ssl`, so `try_connect` never runs. The model
  treats this like a configuration that never arrives: a trace without
  `ConfigArrived`.


=== FILE: config.dfy ===
/** The connection configuration and the transport-level settings the
    service derives from it when it configures the STOMP client. */
module Configuration {
  import opened Maybe
  import Decimal

  /** The configuration record the config provider delivers. The optional
      fields may be `undefined`; `debug` may also be `null`, which the
      source treats like `undefined`. `reconnectDelay` is read by the
      service although the declared interface does not list it. */
  datatype StompConfig = StompConfig(
    host: string,
    port: nat,
    path: string,
    ssl: bool,
    user: string,
    pass: string,
    heartbeatIn: Option<int>,
    heartbeatOut: Option<int>,
    reconnectDelay: Option<int>,
    debug: Option<bool>)

  /** The settings of a freshly built transport client: the URL it was
      created for, its heartbeat intervals, its auto-reconnect delay and
      whether a debug sink is installed. */
  datatype Client = Client(
    url: string,
    heartbeatIncoming: Option<int>,
    heartbeatOutgoing: Option<int>,
    reconnectDelay: Option<int>,
    debugSink: bool)

  /** The WebSocket scheme: secure exactly when `ssl` is set. */
  function Scheme(ssl: bool): (scheme: string)
    ensures scheme == "wss" <==> ssl
    ensures scheme == "ws" <==> !ssl
  {
    if ssl then "wss" else "ws"
  }

  /** The broker URL `scheme://host:port/path`. */
  function BuildUrl(cfg: StompConfig): (url: string)
    ensures |url| == |Scheme(cfg.ssl)| + 3 + |cfg.host| + 1 + |Decimal.FromNat(cfg.port)| + 1 + |cfg.path|
    ensures url[..|Scheme(cfg.ssl)| + 3] == Scheme(cfg.ssl) + "://"
    ensures url[|url| - |cfg.path| - 1..] == "/" + cfg.path
  {
    Scheme(cfg.ssl) + "://" + Authority(cfg.host, cfg.port, cfg.path)
  }

  /** The `host:port/path` part of the broker URL. */
  function Authority(host: string, port: nat, path: string): string {
    host + ":" + Decimal.FromNat(port) + "/" + path
  }

  /** JavaScript truthiness of an optional boolean. */
  predicate Truthy(b: Option<bool>) {
    b.Some? && b.value
  }

  /** The debug sink is installed when `debug` is truthy or nullish;
      only an explicit `false` leaves it out. */
  function DebugSinkInstalled(debug: Option<bool>): (installed: bool)
    ensures installed <==> debug != Some(false)
    ensures !installed <==> debug == Some(false)
  {
    Truthy(debug) || debug.None?
  }

  /** Build the transport client for a configuration: the URL from the
      endpoint fields, heartbeats and reconnect delay copied unchanged,
      and the debug sink chosen from the three-valued `debug` flag. */
  function Configure(cfg: StompConfig): (c: Client)
    ensures c.url == BuildUrl(cfg)
    ensures c.heartbeatIncoming == cfg.heartbeatIn
    ensures c.heartbeatOutgoing == cfg.heartbeatOut
    ensures c.reconnectDelay == cfg.reconnectDelay
    ensures c.debugSink <==> cfg.debug != Some(false)
  {
    Client(BuildUrl(cfg), cfg.heartbeatIn, cfg.heartbeatOut, cfg.reconnectDelay, DebugSinkInstalled(cfg.debug))
  }

  // ---------------------------------------------------------------------
  // A URL reader, the partner of BuildUrl
  // ---------------------------------------------------------------------

  /** The parts of a broker URL. */
  datatype Endpoint = Endpoint(ssl: bool, host: string, port: nat, path: string)

  /** Index of the first occurrence of `sep` in `s`. */
  function IndexOf(s: string, sep: char): (i: nat)
    requires sep in s
    ensures i < |s| && s[i] == sep
    ensures sep !in s[..i]
  {
    if s[0] == sep then 0
    else
      assert sep in s[1..] by {
        var k :| 0 <= k < |s| && s[k] == sep;
        assert s[1..][k - 1] == sep;
      }
      var j := IndexOf(s[1..], sep);
      assert s[..j + 1] == [s[0]] + s[1..][..j];
      j + 1
  }

  /** Split `s` at the first occurrence of `sep`, dropping the separator. */
  function SplitAt(s: string, sep: char): (r: Option<(string, string)>)
    ensures r.None? <==> sep !in s
    ensures r.Some? ==> s == r.value.0 + [sep] + r.value.1 && sep !in r.value.0
  {
    if sep !in s then None
    else
      var i := IndexOf(s, sep);
      assert s == s[..i] + [sep] + s[i + 1..];
      Some((s[..i], s[i + 1..]))
  }

  /** Splitting a text made of a separator-free head, the separator and a
      tail gives back the head and the tail. */
  lemma SplitAtJoin(a: string, sep: char, b: string)
    requires sep !in a
    ensures SplitAt(a + [sep] + b, sep) == Some((a, b))
  {
    var s := a + [sep] + b;
    assert s[|a|] == sep;
    var r := SplitAt(s, sep);
    var x := r.value.0;
    if |x| < |a| {
      assert false;
    } else if |x| > |a| {
      assert false;
    }
    assert x == a;
  }

  /** Read a URL of the form `ws://host:port/path` or
      `wss://host:port/path`; the host runs up to the first colon, the
      port is a non-empty run of digits up to the next slash. */
  function ParseUrl(url: string): Option<Endpoint> {
    if |url| >= 6 && url[..6] == "wss://" then ParseAuthority(true, url[6..])
    else if |url| >= 5 && url[..5] == "ws://" then ParseAuthority(false, url[5..])
    else None
  }

  function ParseAuthority(ssl: bool, rest: string): Option<Endpoint> {
    match SplitAt(rest, ':')
    case None => None
    case Some((host, afterHost)) =>
      match SplitAt(afterHost, '/')
      case None => None
      case Some((digits, path)) =>
        if |digits| > 0 && Decimal.AllDigits(digits) then
          Some(Endpoint(ssl, host, Decimal.ToNat(digits), path))
        else None
  }

  /** The authority part `host:port/path` reads back as its pieces. */
  lemma ParseAuthorityJoin(ssl: bool, host: string, port: nat, path: string)
    requires ':' !in host
    ensures ParseAuthority(ssl, Authority(host, port, path)) == Some(Endpoint(ssl, host, port, path))
  {
    var digits := Decimal.FromNat(port);
    assert host + ":" + digits + "/" + path == host + [':'] + (digits + "/" + path);
    SplitAtJoin(host, ':', digits + "/" + path);
    assert '/' !in digits by {
      forall k | 0 <= k < |digits|
        ensures digits[k] != '/'
      {
        assert Decimal.IsDigit(digits[k]);
      }
    }
    assert digits + "/" + path == digits + ['/'] + path;
    SplitAtJoin(digits, '/', path);
    Decimal.ToNatFromNat(port);
  }

  /** The URL built for a configuration reads back as exactly its scheme,
      host, port and path, as long as the host itself holds no colon. */
  lemma ParseBuildUrl(cfg: StompConfig)
    requires ':' !in cfg.host
    ensures ParseUrl(BuildUrl(cfg)) == Some(Endpoint(cfg.ssl, cfg.host, cfg.port, cfg.path))
  {
    var authority := Authority(cfg.host, cfg.port, cfg.path);
    assert BuildUrl(cfg) == Scheme(cfg.ssl) + "://" + authority;
    ParseUrlScheme(cfg.ssl, authority);
    ParseAuthorityJoin(cfg.ssl, cfg.host, cfg.port, cfg.path);
  }

  /** Reading a URL strips exactly the scheme prefix built for `ssl`. */
  lemma ParseUrlScheme(ssl: bool, authority: string)
    ensures ParseUrl(Scheme(ssl) + "://" + authority) == ParseAuthority(ssl, authority)
  {
    if ssl {
      assert Scheme(ssl) + "://" == "wss://";
      ParseSecureUrl(authority);
    } else {
      assert Scheme(ssl) + "://" == "ws://";
      ParsePlainUrl(authority);
    }
  }

  lemma ParseSecureUrl(authority: string)
    ensures ParseUrl("wss://" + authority) == ParseAuthority(true, authority)
  {
    var url := "wss://" + authority;
    assert url[..6] == "wss://";
    assert url[6..] == authority;
  }

  lemma ParsePlainUrl(authority: string)
    ensures ParseUrl("ws://" + authority) == ParseAuthority(false, authority)
  {
    var url := "ws://" + authority;
    assert !(|url| >= 6 && url[..6] == "wss://") by {
      assert url[2] == ':';
    }
    assert url[..5] == "ws://";
    assert url[5..] == authority;
  }

  /** Two configurations whose hosts hold no colon get the same URL only
      when they agree on scheme, host, port and path. */
  lemma BuildUrlInjective(a: StompConfig, b: StompConfig)
    requires ':' !in a.host && ':' !in b.host
    requires BuildUrl(a) == BuildUrl(b)
    ensures a.ssl == b.ssl && a.host == b.host && a.port == b.port && a.path == b.path
  {
    ParseBuildUrl(a);
    ParseBuildUrl(b);
  }
}

=== FILE: decimal.dfy ===
/** Rendering of a non-negative integer as the decimal text a template
    literal produces, and the parser that inverts it. */
module Decimal {

  predicate IsDigit(c: char) {
    '0' <= c <= '9'
  }

  predicate AllDigits(s: string) {
    forall i | 0 <= i < |s| :: IsDigit(s[i])
  }

  function DigitChar(d: nat): (c: char)
    requires d < 10
    ensures IsDigit(c)
  {
    ('0' as int + d) as char
  }

  function DigitValue(c: char): (d: nat)
    requires IsDigit(c)
    ensures d < 10
  {
    c as int - '0' as int
  }

  lemma DigitValueOfChar(d: nat)
    requires d < 10
    ensures DigitValue(DigitChar(d)) == d
  {
  }

  /** Decimal text of `n`: only digits, never empty, and no leading zero
      unless `n` is zero itself. */
  function FromNat(n: nat): (s: string)
    ensures |s| > 0
    ensures AllDigits(s)
    ensures s[0] == '0' ==> n == 0
    decreases n
  {
    if n < 10 then [DigitChar(n)]
    else FromNat(n / 10) + [DigitChar(n % 10)]
  }

  /** The number a string of decimal digits denotes. */
  function ToNat(s: string): nat
    requires AllDigits(s)
    decreases |s|
  {
    if |s| == 0 then 0
    else ToNat(s[..|s| - 1]) * 10 + DigitValue(s[|s| - 1])
  }

  /** Parsing the rendered text gives the number back. */
  lemma {:induction false} ToNatFromNat(n: nat)
    ensures ToNat(FromNat(n)) == n
    decreases n
  {
    var s := FromNat(n);
    if n < 10 {
      DigitValueOfChar(n);
      assert s[..0] == [];
    } else {
      ToNatFromNat(n / 10);
      DigitValueOfChar(n % 10);
      assert s[..|s| - 1] == FromNat(n / 10);
    }
  }

  /** Distinct numbers render to distinct texts. */
  lemma FromNatInjective(m: nat, n: nat)
    requires FromNat(m) == FromNat(n)
    ensures m == n
  {
    ToNatFromNat(m);
    ToNatFromNat(n);
  }
}

=== FILE: lifecycle.dfy ===
/** Properties of the connection lifecycle over event traces: the state
    starts CLOSED and, until the configuration arrives, only `disconnect`
    calls emit anything (DISCONNECTING); the service configures before it
    connects, and TRYING is emitted once. */
module LifecycleProperties {
  import opened Maybe
  import opened Configuration
  import opened StompService

  /** Some event of the trace delivers the configuration. */
  predicate ConfigDelivered(trace: seq<Event>) {
    exists i | 0 <= i < |trace| :: trace[i].ConfigArrived?
  }

  /** What holds of the service between any two events. */
  ghost predicate LifecycleInv(s: Session) {
    && s.history[0] == Closed
    && (s.config.None? <==> s.client.None?)
    && (s.config.Some? ==> s.client == Some(Configure(s.config.value)))
    && CountState(s.history, Trying) == (if s.config.Some? then 1 else 0)
    && (CountState(s.history, Connected) > 0 ==> s.client.Some?)
  }

  lemma InitLifecycle()
    ensures LifecycleInv(Init())
  {
    assert Init().history == [] + [Closed];
    CountStateSnoc([], Closed, Trying);
    CountStateSnoc([], Closed, Connected);
  }

  /** Emitting a value other than TRYING, with CONNECTED only once a
      client exists, keeps the invariant. */
  lemma EmitLifecycle(s: Session, st: State)
    requires LifecycleInv(s)
    requires st != Trying
    requires st == Connected ==> s.client.Some?
    ensures LifecycleInv(Emit(s, st))
  {
    CountStateSnoc(s.history, st, Trying);
    CountStateSnoc(s.history, st, Connected);
  }

  lemma StepLifecycle(s: Session, e: Event)
    requires LifecycleInv(s)
    ensures LifecycleInv(Step(s, e))
    ensures Step(s, e).config.Some? <==> s.config.Some? || e.ConfigArrived?
  {
    match e
    case ConfigArrived(cfg) =>
      if s.config.None? {
        CountStateSnoc(s.history, Trying, Trying);
        CountStateSnoc(s.history, Trying, Connected);
      }
    case ConnectOk =>
      if s.client.Some? {
        EmitLifecycle(s, Connected);
      }
    case TransportError(payload, connected) =>
      if s.client.Some? && !connected {
        EmitLifecycle(s.(errors := s.errors + [ErrorText(payload)]), Closed);
      }
    case DisconnectRequested(connected) =>
      EmitLifecycle(s, Disconnecting);
    case DisconnectComplete =>
      if s.pendingDisconnects > 0 {
        EmitLifecycle(s.(pendingDisconnects := s.pendingDisconnects - 1), Closed);
      }
    case PublishRequested(_, _) =>
    case SubscribeRequested(_) =>
    case MessageArrived(_, _) =>
  }

  lemma {:induction false} RunLifecycle(s: Session, trace: seq<Event>)
    requires LifecycleInv(s)
    ensures LifecycleInv(Run(s, trace))
    ensures Run(s, trace).config.Some? <==> s.config.Some? || ConfigDelivered(trace)
    decreases |trace|
  {
    if |trace| > 0 {
      StepLifecycle(s, trace[0]);
      RunLifecycle(Step(s, trace[0]), trace[1..]);
      if ConfigDelivered(trace[1..]) {
        var i :| 0 <= i < |trace[1..]| && trace[1..][i].ConfigArrived?;
        assert trace[i + 1].ConfigArrived?;
      }
      if ConfigDelivered(trace) && !trace[0].ConfigArrived? {
        var i :| 0 <= i < |trace| && trace[i].ConfigArrived?;
        assert trace[1..][i - 1].ConfigArrived?;
      }
    }
  }

  /** From a fresh service: the first value is CLOSED; TRYING has been
      emitted exactly once if the configuration arrived and never
      otherwise; the client is the one the configuration builds; and
      CONNECTED is never reported before a client exists. */
  lemma LifecycleFromStart(trace: seq<Event>)
    ensures var s := Run(Init(), trace);
      && s.history[0] == Closed
      && CountState(s.history, Trying) == (if ConfigDelivered(trace) then 1 else 0)
      && (s.client.Some? <==> ConfigDelivered(trace))
      && (s.config.Some? ==> s.client == Some(Configure(s.config.value)))
      && (CountState(s.history, Connected) > 0 ==> ConfigDelivered(trace))
  {
    InitLifecycle();
    RunLifecycle(Init(), trace);
  }

  /** The number of `disconnect` calls in a trace. */
  function DisconnectRequests(trace: seq<Event>): nat {
    if |trace| == 0 then 0
    else (if trace[0].DisconnectRequested? then 1 else 0) + DisconnectRequests(trace[1..])
  }

  /** Before the configuration arrives the only values emitted are the
      DISCONNECTING of `disconnect` calls, one each, and no transport call
      is made: the transport callbacks are not yet registered, there is no
      client to disconnect, publishing throws, and subscribing only
      attaches. */
  lemma {:induction false} QuietUntilConfigured(s: Session, trace: seq<Event>)
    requires s.config.None? && s.client.None? && s.pendingDisconnects == 0
    requires Current(s) != Connected
    requires forall i | 0 <= i < |trace| :: !trace[i].ConfigArrived?
    ensures var r := Run(s, trace);
      && |r.history| == |s.history| + DisconnectRequests(trace)
      && r.history[..|s.history|] == s.history
      && (forall k | |s.history| <= k < |r.history| :: r.history[k] == Disconnecting)
      && r.calls == s.calls
      && r.config.None? && r.client.None? && r.pendingDisconnects == 0
    decreases |trace|
  {
    if |trace| > 0 {
      var t := Step(s, trace[0]);
      assert t.calls == s.calls;
      assert t.config.None? && t.client.None? && t.pendingDisconnects == 0;
      if trace[0].DisconnectRequested? {
        assert t.history == s.history + [Disconnecting];
      } else {
        assert t.history == s.history;
      }
      QuietUntilConfigured(t, trace[1..]);
      var r := Run(t, trace[1..]);
      assert r.history[..|t.history|] == t.history;
      assert r.history[..|s.history|] == t.history[..|s.history|];
    }
  }

  /** From a fresh service, until the configuration arrives the state is
      CLOSED followed by one DISCONNECTING per `disconnect` call, and no
      transport call is made; when it arrives, the client is built from
      it, connect is called with its credentials, and TRYING is emitted. */
  lemma ConfigureThenConnect(quiet: seq<Event>, cfg: StompConfig)
    requires forall i | 0 <= i < |quiet| :: !quiet[i].ConfigArrived?
    ensures var before := Run(Init(), quiet);
      && |before.history| == 1 + DisconnectRequests(quiet)
      && before.history[0] == Closed
      && (forall k | 1 <= k < |before.history| :: before.history[k] == Disconnecting)
    ensures var s := Run(Init(), quiet + [ConfigArrived(cfg)]);
      && s.history == Run(Init(), quiet).history + [Trying]
      && s.calls == [Connect(cfg.user, cfg.pass)]
      && s.client == Some(Configure(cfg))
  {
    QuietUntilConfigured(Init(), quiet);
    RunSnoc(Init(), quiet, ConfigArrived(cfg));
    var before := Run(Init(), quiet);
    assert before.history[0] == Closed by {
      assert before.history[..1] == [Closed];
    }
    assert before.config.None?;
    var after := OnConfig(before, cfg);
    assert after.calls == [] + [Connect(cfg.user, cfg.pass)];
  }

  /** Running a trace with one more event is one more step. */
  lemma {:induction false} RunSnoc(s: Session, trace: seq<Event>, e: Event)
    ensures Run(s, trace + [e]) == Step(Run(s, trace), e)
    decreases |trace|
  {
    if |trace| == 0 {
      assert [e][1..] == [];
    } else {
      assert (trace + [e])[1..] == trace[1..] + [e];
      RunSnoc(Step(s, trace[0]), trace[1..], e);
    }
  }
}

=== FILE: maybe.dfy ===
/** Optional values and success/failure results, used for the fields a
    configuration may omit and for operations that throw in the source. */
module Maybe {

  /** A value that may be absent (`null` or `undefined` in the source). */
  datatype Option<+T> = None | Some(value: T)

  /** The outcome of an operation that either succeeds or raises an error. */
  datatype Result<+R, +E> = Success(value: R) | Failure(error: E)
}

=== FILE: properties.dfy ===
/** The subscription broker over whole event traces: every subscriber gets
    one transport subscribe per CONNECTED value it sees. */
module ServiceProperties {
  import opened StompService

  // ---------------------------------------------------------------------
  // The subscription broker
  // ---------------------------------------------------------------------

  /** Every transport subscription forwards to an attached observer, on
      that observer's queue, with automatic acknowledgement. */
  ghost predicate SubscribesTargetObservers(s: Session) {
    forall k | 0 <= k < |s.calls| && s.calls[k].Subscribe? ::
      && s.calls[k].observer < |s.observers|
      && s.calls[k].destination == s.observers[s.calls[k].observer].destination
      && s.calls[k].ack == AutoAck
  }

  /** The broker's rule: an observer has had exactly as many transport
      subscriptions as there were CONNECTED values from the one replayed
      to it on attaching onward. */
  ghost predicate SubscribesMatchConnected(s: Session) {
    forall i | 0 <= i < |s.observers| ::
      && s.observers[i].attachedAt < |s.history|
      && CountSubscribes(s.calls, i) == CountState(s.history[s.observers[i].attachedAt..], Connected)
  }

  /** No observer has received a message without a transport subscription
      of its own. */
  ghost predicate ReceivesOnlyWhenSubscribed(s: Session) {
    forall i | 0 <= i < |s.observers| ::
      |s.observers[i].received| > 0 ==> CountSubscribes(s.calls, i) > 0
  }

  ghost predicate BrokerInv(s: Session) {
    && SubscribesTargetObservers(s)
    && SubscribesMatchConnected(s)
    && ReceivesOnlyWhenSubscribed(s)
  }

  lemma {:induction false} CountSubscribesNone(calls: seq<TransportCall>, o: nat)
    requires forall k | 0 <= k < |calls| && calls[k].Subscribe? :: calls[k].observer < o
    ensures CountSubscribes(calls, o) == 0
    decreases |calls|
  {
    if |calls| > 0 {
      CountSubscribesNone(calls[..|calls| - 1], o);
    }
  }

  lemma CountSubscribesPositive(calls: seq<TransportCall>, k: nat)
    requires k < |calls| && calls[k].Subscribe?
    ensures CountSubscribes(calls, calls[k].observer) > 0
  {
    var o := calls[k].observer;
    assert calls == calls[..k + 1] + calls[k + 1..];
    CountSubscribesAppend(calls[..k + 1], calls[k + 1..], o);
    assert calls[..k + 1][..k] == calls[..k];
  }

  lemma CountSubscribesOther(calls: seq<TransportCall>, c: TransportCall, o: nat)
    requires !(c.Subscribe? && c.observer == o)
    ensures CountSubscribes(calls + [c], o) == CountSubscribes(calls, o)
  {
    assert (calls + [c])[..|calls|] == calls;
  }

  lemma HistorySuffixSnoc(h: seq<State>, a: nat, st: State)
    requires a < |h|
    ensures CountState((h + [st])[a..], Connected)
         == CountState(h[a..], Connected) + (if st == Connected then 1 else 0)
  {
    assert (h + [st])[a..] == h[a..] + [st];
    CountStateSnoc(h[a..], st, Connected);
  }

  lemma EmitPreservesBroker(s: Session, st: State)
    requires BrokerInv(s)
    ensures BrokerInv(Emit(s, st))
  {
    var r := Emit(s, st);
    EmitSubscribes(s, st);
    forall k | 0 <= k < |r.calls| && r.calls[k].Subscribe?
      ensures && r.calls[k].observer < |r.observers|
              && r.calls[k].destination == r.observers[r.calls[k].observer].destination
              && r.calls[k].ack == AutoAck
    {
      if k < |s.calls| {
        assert r.calls[k] == r.calls[..|s.calls|][k] == s.calls[k];
      }
    }
    forall i | 0 <= i < |r.observers|
      ensures && r.observers[i].attachedAt < |r.history|
              && CountSubscribes(r.calls, i) == CountState(r.history[r.observers[i].attachedAt..], Connected)
    {
      HistorySuffixSnoc(s.history, s.observers[i].attachedAt, st);
    }
  }

  /** A transport call other than subscribe leaves the broker's counts alone. */
  lemma PlainCallPreservesBroker(s: Session, c: TransportCall)
    requires BrokerInv(s)
    requires !c.Subscribe?
    ensures BrokerInv(s.(calls := s.calls + [c]))
  {
    var r := s.(calls := s.calls + [c]);
    forall o: nat
      ensures CountSubscribes(r.calls, o) == CountSubscribes(s.calls, o)
    {
      CountSubscribesOther(s.calls, c, o);
    }
    forall k | 0 <= k < |r.calls| && r.calls[k].Subscribe?
      ensures && r.calls[k].observer < |r.observers|
              && r.calls[k].destination == r.observers[r.calls[k].observer].destination
              && r.calls[k].ack == AutoAck
    {
      assert k < |s.calls|;
      assert r.calls[k] == s.calls[k];
    }
  }

  lemma AttachPreservesBroker(s: Session, destination: string)
    requires BrokerInv(s)
    ensures BrokerInv(Attach(s, destination))
  {
    var r := Attach(s, destination);
    var id := |s.observers|;
    var added := if Current(s) == Connected then [Subscribe(destination, AutoAck, id)] else [];
    assert r.calls == s.calls + added;
    forall k | 0 <= k < |r.calls| && r.calls[k].Subscribe?
      ensures && r.calls[k].observer < |r.observers|
              && r.calls[k].destination == r.observers[r.calls[k].observer].destination
              && r.calls[k].ack == AutoAck
    {
      if k < |s.calls| {
        assert r.calls[k] == s.calls[k];
        assert r.observers[s.calls[k].observer] == s.observers[s.calls[k].observer];
      }
    }
    forall o: nat
      ensures CountSubscribes(r.calls, o) == CountSubscribes(s.calls, o) + (if o == id && Current(s) == Connected then 1 else 0)
    {
      CountSubscribesAppend(s.calls, added, o);
      if Current(s) == Connected {
        assert added[..0] == [];
      }
    }
    CountSubscribesNone(s.calls, id);
    var h := s.history;
    assert h[|h| - 1..] == [] + [h[|h| - 1]];
    CountStateSnoc([], h[|h| - 1], Connected);
    forall i | 0 <= i < |r.observers|
      ensures && r.observers[i].attachedAt < |r.history|
              && CountSubscribes(r.calls, i) == CountState(r.history[r.observers[i].attachedAt..], Connected)
    {
      if i < id {
        assert r.observers[i] == s.observers[i];
      }
    }
  }

  lemma DeliverPreservesBroker(s: Session, k: nat, msg: Message)
    requires BrokerInv(s)
    ensures BrokerInv(Deliver(s, k, msg))
  {
    var r := Deliver(s, k, msg);
    if k < |s.calls| && s.calls[k].Subscribe? && s.calls[k].observer < |s.observers| {
      CountSubscribesPositive(s.calls, k);
      forall i | 0 <= i < |r.observers|
        ensures r.observers[i].destination == s.observers[i].destination
        ensures r.observers[i].attachedAt == s.observers[i].attachedAt
      {
      }
    }
  }

  lemma StepPreservesBroker(s: Session, e: Event)
    requires BrokerInv(s)
    ensures BrokerInv(Step(s, e))
  {
    match e
    case ConfigArrived(cfg) =>
      if s.config.None? {
        var c := SetConfig(s, cfg);
        PlainCallPreservesBroker(c, Connect(cfg.user, cfg.pass));
        EmitPreservesBroker(c.(calls := c.calls + [Connect(cfg.user, cfg.pass)]), Trying);
      }
    case ConnectOk =>
      if s.client.Some? {
        EmitPreservesBroker(s, Connected);
      }
    case TransportError(payload, connected) =>
      if s.client.Some? && !connected {
        EmitPreservesBroker(s.(errors := s.errors + [ErrorText(payload)]), Closed);
      }
    case DisconnectRequested(connected) =>
      EmitPreservesBroker(s, Disconnecting);
      if s.client.Some? && connected {
        var d := Emit(s, Disconnecting);
        PlainCallPreservesBroker(d.(pendingDisconnects := d.pendingDisconnects + 1), Disconnect);
      }
    case DisconnectComplete =>
      if s.pendingDisconnects > 0 {
        EmitPreservesBroker(s.(pendingDisconnects := s.pendingDisconnects - 1), Closed);
      }
    case PublishRequested(destination, body) =>
      if s.client.Some? {
        PlainCallPreservesBroker(s, Send(destination, map[], body));
      }
    case SubscribeRequested(destination) =>
      AttachPreservesBroker(s, destination);
    case MessageArrived(k, msg) =>
      DeliverPreservesBroker(s, k, msg);
  }

  lemma {:induction false} RunPreservesBroker(s: Session, trace: seq<Event>)
    requires BrokerInv(s)
    ensures BrokerInv(Run(s, trace))
    decreases |trace|
  {
    if |trace| > 0 {
      StepPreservesBroker(s, trace[0]);
      RunPreservesBroker(Step(s, trace[0]), trace[1..]);
    }
  }

  /** For every subscriber of every observable `subscribe` returned, after
      any sequence of events from a fresh service: the transport
      subscribe calls made on its behalf number exactly the CONNECTED
      values it has seen, the replayed current value included, and each
      one names its queue with automatic acknowledgement. */
  lemma BrokerSubscribesOncePerConnected(trace: seq<Event>)
    ensures var s := Run(Init(), trace);
      && (forall i | 0 <= i < |s.observers| ::
            && s.observers[i].attachedAt < |s.history|
            && CountSubscribes(s.calls, i) == CountState(s.history[s.observers[i].attachedAt..], Connected))
      && (forall k | 0 <= k < |s.calls| && s.calls[k].Subscribe? ::
            && s.calls[k].observer < |s.observers|
            && s.calls[k].destination == s.observers[s.calls[k].observer].destination
            && s.calls[k].ack == AutoAck)
      && (forall i | 0 <= i < |s.observers| ::
            |s.observers[i].received| > 0 ==> CountSubscribes(s.calls, i) > 0)
  {
    RunPreservesBroker(Init(), trace);
  }
}

=== FILE: publishing.dfy ===
/** Properties of `publish` over event traces: every publish made once a
    client exists becomes exactly one send, in order, whatever the
    connection state; nothing else sends. */
module PublishProperties {
  import opened Configuration
  import opened StompService

  /** The send calls among the transport calls, in order. */
  function Sends(calls: seq<TransportCall>): (r: seq<TransportCall>)
    ensures forall k | 0 <= k < |r| :: r[k].Send?
    ensures |r| <= |calls|
    decreases |calls|
  {
    if |calls| == 0 then []
    else
      var last := calls[|calls| - 1];
      Sends(calls[..|calls| - 1]) + (if last.Send? then [last] else [])
  }

  lemma {:induction false} SendsAppend(a: seq<TransportCall>, b: seq<TransportCall>)
    ensures Sends(a + b) == Sends(a) + Sends(b)
    decreases |b|
  {
    if |b| == 0 {
      assert a + b == a;
    } else {
      assert (a + b)[..|a + b| - 1] == a + b[..|b| - 1];
      SendsAppend(a, b[..|b| - 1]);
    }
  }

  lemma {:induction false} SendsNone(calls: seq<TransportCall>)
    requires forall k | 0 <= k < |calls| :: !calls[k].Send?
    ensures Sends(calls) == []
    decreases |calls|
  {
    if |calls| > 0 {
      SendsNone(calls[..|calls| - 1]);
    }
  }

  /** The sends a trace should cause: one `Send(queue, {}, message)` per
      publish request made while a client exists, in request order. A
      client exists from the moment the configuration arrives. */
  function ExpectedSends(configured: bool, trace: seq<Event>): seq<TransportCall>
    decreases |trace|
  {
    if |trace| == 0 then []
    else
      var e := trace[0];
      (if e.PublishRequested? && configured then [Send(e.destination, map[], e.body)] else [])
      + ExpectedSends(configured || e.ConfigArrived?, trace[1..])
  }

  /** Emitting a state never sends. */
  lemma EmitSendsNothing(s: Session, st: State)
    ensures Sends(Emit(s, st).calls) == Sends(s.calls)
  {
    var r := Emit(s, st);
    EmitSubscribes(s, st);
    var added := r.calls[|s.calls|..];
    assert r.calls == s.calls + added;
    SendsAppend(s.calls, added);
    SendsNone(added);
  }

  /** Once a client exists it stays; it comes into being only when the
      configuration arrives. */
  lemma StepKeepsClient(s: Session, e: Event)
    requires s.config.Some? ==> s.client.Some?
    ensures var t := Step(s, e);
      && (t.config.Some? ==> t.client.Some?)
      && (t.client.Some? <==> s.client.Some? || e.ConfigArrived?)
  {
  }

  lemma ConfigSendsNothing(s: Session, cfg: StompConfig)
    ensures Sends(OnConfig(s, cfg).calls) == Sends(s.calls)
  {
    if s.config.None? {
      var c := SetConfig(s, cfg);
      SendsAppend(c.calls, [Connect(cfg.user, cfg.pass)]);
      EmitSendsNothing(c.(calls := c.calls + [Connect(cfg.user, cfg.pass)]), Trying);
    }
  }

  lemma DisconnectSendsNothing(s: Session, connected: bool)
    ensures Sends(RequestDisconnect(s, connected).calls) == Sends(s.calls)
  {
    var d := Emit(s, Disconnecting);
    EmitSendsNothing(s, Disconnecting);
    SendsAppend(d.calls, [Disconnect]);
  }

  lemma AttachSendsNothing(s: Session, destination: string)
    ensures Sends(Attach(s, destination).calls) == Sends(s.calls)
  {
    var added := if Current(s) == Connected then [Subscribe(destination, AutoAck, |s.observers|)] else [];
    SendsAppend(s.calls, added);
    SendsNone(added);
  }

  /** One event adds to the sends exactly the publish it requests, if a
      client exists, and nothing otherwise. */
  lemma StepSends(s: Session, e: Event)
    ensures Sends(Step(s, e).calls) == Sends(s.calls)
           + (if e.PublishRequested? && s.client.Some? then [Send(e.destination, map[], e.body)] else [])
  {
    match e
    case ConfigArrived(cfg) =>
      ConfigSendsNothing(s, cfg);
    case ConnectOk =>
      EmitSendsNothing(s, Connected);
    case TransportError(payload, connected) =>
      EmitSendsNothing(s.(errors := s.errors + [ErrorText(payload)]), Closed);
    case DisconnectRequested(connected) =>
      DisconnectSendsNothing(s, connected);
    case DisconnectComplete =>
      if s.pendingDisconnects > 0 {
        EmitSendsNothing(s.(pendingDisconnects := s.pendingDisconnects - 1), Closed);
      }
    case PublishRequested(destination, body) =>
      SendsAppend(s.calls, [Send(destination, map[], body)]);
    case SubscribeRequested(destination) =>
      AttachSendsNothing(s, destination);
    case MessageArrived(_, _) =>
  }

  /** Over any trace, the sends made are exactly the expected ones: each
      accepted publish is sent once, with its queue, empty headers and
      its message, in the order requested, and regardless of the
      connection state at the time. */
  lemma {:induction false} RunSends(s: Session, trace: seq<Event>)
    requires s.config.Some? ==> s.client.Some?
    ensures Sends(Run(s, trace).calls) == Sends(s.calls) + ExpectedSends(s.client.Some?, trace)
    decreases |trace|
  {
    if |trace| > 0 {
      var t := Step(s, trace[0]);
      StepKeepsClient(s, trace[0]);
      StepSends(s, trace[0]);
      RunSends(t, trace[1..]);
    }
  }

  /** From a fresh service, the sends are exactly the publishes requested
      after the configuration arrived. */
  lemma SendsFromStart(trace: seq<Event>)
    ensures Sends(Run(Init(), trace).calls) == ExpectedSends(false, trace)
  {
    RunSends(Init(), trace);
  }
}

=== FILE: scenarios.dfy ===
/** The broker URL for a sample endpoint. */
module UrlExamples {
  import opened Configuration
  import Decimal

  lemma SamplePortText()
    ensures Decimal.FromNat(61614) == "61614"
  {
    assert Decimal.DigitChar(6) == '6';
    assert Decimal.DigitChar(1) == '1';
    assert Decimal.DigitChar(4) == '4';
    assert Decimal.FromNat(6) == "6";
    assert Decimal.FromNat(61) == "61";
    assert Decimal.FromNat(616) == "616";
    assert Decimal.FromNat(6161) == "6161";
  }

  lemma SampleAuthority()
    ensures Authority("broker.example", 61614, "ws") == "broker.example:61614/ws"
  {
    SamplePortText();
  }

  /** The URL for the sample endpoint, under either scheme. */
  lemma SampleUrl(cfg: StompConfig)
    requires cfg.host == "broker.example" && cfg.port == 61614 && cfg.path == "ws"
    ensures BuildUrl(cfg) == Scheme(cfg.ssl) + "://broker.example:61614/ws"
  {
    SampleAuthority();
    var authority := Authority(cfg.host, cfg.port, cfg.path);
    assert authority == "broker.example:61614/ws";
    assert "://" + authority == "://broker.example:61614/ws";
  }

  /** A TLS configuration for `broker.example`, port 61614, path `ws`
      yields the URL `wss://broker.example:61614/ws`. */
  lemma SampleSecureUrl(cfg: StompConfig)
    requires cfg.host == "broker.example" && cfg.port == 61614 && cfg.path == "ws" && cfg.ssl
    ensures BuildUrl(cfg) == "wss://broker.example:61614/ws"
  {
    SampleUrl(cfg);
    assert Scheme(cfg.ssl) == "wss";
    SchemeJoin("wss", "://broker.example:61614/ws", "wss://broker.example:61614/ws");
  }

  /** The same endpoint without TLS uses the `ws` scheme. */
  lemma SamplePlainUrl(cfg: StompConfig)
    requires cfg.host == "broker.example" && cfg.port == 61614 && cfg.path == "ws" && !cfg.ssl
    ensures BuildUrl(cfg) == "ws://broker.example:61614/ws"
  {
    SampleUrl(cfg);
    assert Scheme(cfg.ssl) == "ws";
    SchemeJoin("ws", "://broker.example:61614/ws", "ws://broker.example:61614/ws");
  }

  /** Literal concatenation, checked character by character. */
  lemma SchemeJoin(scheme: string, rest: string, url: string)
    requires |url| == |scheme| + |rest|
    requires forall i | 0 <= i < |scheme| :: url[i] == scheme[i]
    requires forall i | 0 <= i < |rest| :: url[|scheme| + i] == rest[i]
    ensures scheme + rest == url
  {
  }
}

/** Runs of the service on particular event traces, including CLOSED →
    CONNECTED on transport reconnect, DISCONNECTING from any state, and
    DISCONNECTING left unresolved without a live session. */
module Scenarios {
  import opened Maybe
  import opened Configuration
  import opened StompService

  /** Running a trace is one step followed by the rest. */
  lemma RunCons(s: Session, e: Event, rest: seq<Event>)
    ensures Run(s, [e] + rest) == Run(Step(s, e), rest)
  {
    assert ([e] + rest)[1..] == rest;
  }

  /** The transport drops the session and its auto-reconnect succeeds:
      the state goes CLOSED to CONNECTED with no TRYING in between, and a
      subscriber attached before the first connection has been given a
      second transport subscription on top of the first. */
  lemma ReconnectSkipsTrying(cfg: StompConfig, q: string, p: ErrorPayload)
    ensures var s := Run(Init(), [SubscribeRequested(q), ConfigArrived(cfg), ConnectOk, TransportError(p, false), ConnectOk]);
      && s.history == [Closed, Trying, Connected, Closed, Connected]
      && s.calls == [Connect(cfg.user, cfg.pass), Subscribe(q, AutoAck, 0), Subscribe(q, AutoAck, 0)]
      && s.errors == [ErrorText(p)]
  {
    var e0, e1, e2, e3, e4 := SubscribeRequested(q), ConfigArrived(cfg), ConnectOk, TransportError(p, false), ConnectOk;
    var s0 := Attach(Init(), q);
    var s1 := OnConfig(s0, cfg);
    var s2 := OnConnect(s1);
    var s3 := OnError(s2, p, false);
    var s4 := OnConnect(s3);
    ReconnectStates(cfg, q, p);
    RunCons(s3, e4, []);
    RunCons(s2, e3, [e4]);
    RunCons(s1, e2, [e3, e4]);
    RunCons(s0, e1, [e2, e3, e4]);
    RunCons(Init(), e0, [e1, e2, e3, e4]);
  }

  lemma ReconnectStates(cfg: StompConfig, q: string, p: ErrorPayload)
    ensures var s1 := OnConfig(Attach(Init(), q), cfg);
      var s3 := OnError(OnConnect(s1), p, false);
      && s1.client.Some? && s3.client.Some?
      && OnConnect(s3).history == [Closed, Trying, Connected, Closed, Connected]
      && OnConnect(s3).calls == [Connect(cfg.user, cfg.pass), Subscribe(q, AutoAck, 0), Subscribe(q, AutoAck, 0)]
      && OnConnect(s3).errors == [ErrorText(p)]
  {
    var s1 := OnConfig(Attach(Init(), q), cfg);
    AttachThenConfigure(cfg, q);
    var s2 := OnConnect(s1);
    ConnectSubscribesSole(s1, q);
    var s3 := OnError(s2, p, false);
    var s4 := OnConnect(s3);
    ConnectSubscribesSole(s3, q);
  }

  lemma AttachThenConfigure(cfg: StompConfig, q: string)
    ensures var s1 := OnConfig(Attach(Init(), q), cfg);
      && s1.calls == [Connect(cfg.user, cfg.pass)]
      && s1.history == [Closed, Trying]
      && s1.observers == [Observer(q, 0, [])]
      && s1.client.Some? && s1.errors == []
  {
  }

  /** With one observer attached, CONNECTED makes one subscribe call for it. */
  lemma ConnectSubscribesSole(s: Session, q: string)
    requires |s.observers| == 1 && s.observers[0].destination == q
    ensures OnConnect(s).calls == s.calls + [Subscribe(q, AutoAck, 0)]
  {
  }

  /** An error while the client still reports itself connected changes no
      state; a structured frame is reported by its body. */
  lemma ErrorWhileConnectedKeepsState(cfg: StompConfig, frame: Message)
    ensures var s := Run(Init(), [ConfigArrived(cfg), ConnectOk, TransportError(FrameError(frame), true)]);
      && s.history == [Closed, Trying, Connected]
      && s.errors == [frame.body]
  {
    var e0, e1, e2 := ConfigArrived(cfg), ConnectOk, TransportError(FrameError(frame), true);
    var s0 := OnConfig(Init(), cfg);
    var s1 := OnConnect(s0);
    assert s1.history == [Closed, Trying, Connected];
    RunCons(s1, e2, []);
    RunCons(s0, e1, [e2]);
    RunCons(Init(), e0, [e1, e2]);
  }

  /** `disconnect` with no live transport session announces
      DISCONNECTING, calls nothing, and a later completion event finds no
      callback to run, so the state stays DISCONNECTING. */
  lemma DisconnectWithoutSessionStaysDisconnecting(cfg: StompConfig)
    ensures var s := Run(Init(), [ConfigArrived(cfg), DisconnectRequested(false), DisconnectComplete]);
      && s.history == [Closed, Trying, Disconnecting]
      && s.calls == [Connect(cfg.user, cfg.pass)]
  {
    var e0, e1, e2 := ConfigArrived(cfg), DisconnectRequested(false), DisconnectComplete;
    var s0 := OnConfig(Init(), cfg);
    var s1 := RequestDisconnect(s0, false);
    assert s1.pendingDisconnects == 0;
    assert s1.history == [Closed, Trying, Disconnecting];
    RunCons(s1, e2, []);
    RunCons(s0, e1, [e2]);
    RunCons(Init(), e0, [e1, e2]);
  }

  /** A graceful disconnect of a live session: DISCONNECTING at once,
      CLOSED only from the completion callback. */
  lemma DisconnectLiveSession(cfg: StompConfig)
    ensures var s := Run(Init(), [ConfigArrived(cfg), ConnectOk, DisconnectRequested(true), DisconnectComplete]);
      && s.history == [Closed, Trying, Connected, Disconnecting, Closed]
      && s.calls == [Connect(cfg.user, cfg.pass), Disconnect]
      && s.pendingDisconnects == 0
  {
    var e0, e1, e2, e3 := ConfigArrived(cfg), ConnectOk, DisconnectRequested(true), DisconnectComplete;
    var s0 := OnConfig(Init(), cfg);
    var s1 := OnConnect(s0);
    assert s1.history == [Closed, Trying, Connected];
    var s2 := RequestDisconnect(s1, true);
    assert s2.history == [Closed, Trying, Connected, Disconnecting];
    assert s2.calls == [Connect(cfg.user, cfg.pass), Disconnect] && s2.pendingDisconnects == 1;
    RunCons(s2, e3, []);
    RunCons(s1, e2, [e3]);
    RunCons(s0, e1, [e2, e3]);
    RunCons(Init(), e0, [e1, e2, e3]);
  }

  /** A subscriber attached while connected is subscribed at once from
      the replayed CONNECTED value, and a message on that subscription
      reaches it. */
  lemma SubscribeWhileConnectedReceives(cfg: StompConfig, q: string, m: Message)
    ensures var s := Run(Init(), [ConfigArrived(cfg), ConnectOk, SubscribeRequested(q), MessageArrived(1, m)]);
      && s.observers == [Observer(q, 2, [m])]
      && s.calls == [Connect(cfg.user, cfg.pass), Subscribe(q, AutoAck, 0)]
  {
    var e0, e1, e2, e3 := ConfigArrived(cfg), ConnectOk, SubscribeRequested(q), MessageArrived(1, m);
    var s0 := OnConfig(Init(), cfg);
    var s1 := OnConnect(s0);
    var s2 := Attach(s1, q);
    var s3 := Deliver(s2, 1, m);
    SubscribeWhileConnectedStates(cfg, q, m);
    RunCons(s2, e3, []);
    RunCons(s1, e2, [e3]);
    RunCons(s0, e1, [e2, e3]);
    RunCons(Init(), e0, [e1, e2, e3]);
  }

  lemma SubscribeWhileConnectedStates(cfg: StompConfig, q: string, m: Message)
    ensures var s0 := OnConfig(Init(), cfg);
      var s2 := Attach(OnConnect(s0), q);
      && s0.client.Some?
      && Deliver(s2, 1, m).observers == [Observer(q, 2, [m])]
      && Deliver(s2, 1, m).calls == [Connect(cfg.user, cfg.pass), Subscribe(q, AutoAck, 0)]
  {
    var s0 := OnConfig(Init(), cfg);
    var s1 := OnConnect(s0);
    assert s1.history == [Closed, Trying, Connected] && s1.calls == [Connect(cfg.user, cfg.pass)];
    var s2 := Attach(s1, q);
    assert s2.calls == [Connect(cfg.user, cfg.pass), Subscribe(q, AutoAck, 0)];
    assert s2.observers == [Observer(q, 2, [])];
    var s3 := Deliver(s2, 1, m);
    assert |s3.observers| == 1 && s3.observers[0].received == [m];
  }

  /** After the connection dropped, `publish` still sends. */
  lemma PublishWhileClosedSends(cfg: StompConfig, p: ErrorPayload, q: string, body: Option<string>)
    ensures var s := Run(Init(), [ConfigArrived(cfg), ConnectOk, TransportError(p, false), PublishRequested(q, body)]);
      && s.calls == [Connect(cfg.user, cfg.pass), Send(q, map[], body)]
      && Current(s) == Closed
  {
    var e0, e1, e2, e3 := ConfigArrived(cfg), ConnectOk, TransportError(p, false), PublishRequested(q, body);
    var s0 := OnConfig(Init(), cfg);
    var s1 := OnConnect(s0);
    assert s1.calls == [Connect(cfg.user, cfg.pass)];
    var s2 := OnError(s1, p, false);
    assert s2.calls == s1.calls && Current(s2) == Closed && s2.client.Some?;
    var s3 := Publish(s2, q, body).value;
    assert s3.calls == s1.calls + [Send(q, map[], body)];
    RunCons(s2, e3, []);
    RunCons(s1, e2, [e3]);
    RunCons(s0, e1, [e2, e3]);
    RunCons(Init(), e0, [e1, e2, e3]);
  }
}

=== FILE: service.dfy ===
/** The STOMP service: a connection-state BehaviorSubject, the transport
    client built from the configuration, and the reactions to the
    service's public calls and to the transport's callbacks. Every
    reaction is a pure function from the session before it to the
    session after it. */
module StompService {
  import opened Maybe
  import opened Configuration

  /** The four connection states the service reports. */
  datatype State = Closed | Trying | Connected | Disconnecting

  /** Every value the state BehaviorSubject has held, oldest first; its
      last element is the current value, so it is never empty. */
  type History = h: seq<State> | |h| > 0 witness [Closed]

  /** A frame the transport delivers. */
  datatype Message = Message(headers: map<string, string>, body: string)

  /** What the transport passes to the error callback: a plain string or a
      structured frame. */
  datatype ErrorPayload = PlainError(text: string) | FrameError(frame: Message)

  /** A call the service makes into the transport client. A subscribe call
      carries the observer its message callback forwards to. */
  datatype TransportCall =
    | Connect(login: string, passcode: string)
    | Disconnect
    | Send(destination: string, headers: map<string, string>, body: Option<string>)
    | Subscribe(destination: string, ack: string, observer: nat)

  /** The acknowledgement mode every transport subscription asks for. */
  const AutoAck: string := "auto"

  /** One subscriber of an observable returned by `subscribe`: the queue it
      asked for, the index in the state history of the value it saw
      replayed when it attached, and the messages forwarded to it. */
  datatype Observer = Observer(destination: string, attachedAt: nat, received: seq<Message>)

  /** The service's state. `client` is absent until the configuration has
      arrived; `pendingDisconnects` counts disconnect-completion callbacks
      the transport still owes; `errors` is the normalised text of every
      error the transport reported. */
  datatype Session = Session(
    config: Option<StompConfig>,
    client: Option<Client>,
    history: History,
    calls: seq<TransportCall>,
    pendingDisconnects: nat,
    observers: seq<Observer>,
    errors: seq<string>)

  /** What the source raises when `publish` runs before any client exists. */
  datatype Fault = ClientUndefined

  /** The current value of the state BehaviorSubject. */
  function Current(s: Session): State {
    s.history[|s.history| - 1]
  }

  /** A freshly constructed service: state CLOSED, nothing configured. */
  function Init(): (s: Session)
    ensures s.history == [Closed]
    ensures s.config.None? && s.client.None?
    ensures s.calls == [] && s.observers == []
    ensures s.pendingDisconnects == 0 && s.errors == []
  {
    Session(None, None, [Closed], [], 0, [], [])
  }

  // ---------------------------------------------------------------------
  // Counting
  // ---------------------------------------------------------------------

  /** Number of transport subscribe calls whose callback forwards to
      observer `o`. */
  function CountSubscribes(calls: seq<TransportCall>, o: nat): nat
    decreases |calls|
  {
    if |calls| == 0 then 0
    else
      var last := calls[|calls| - 1];
      CountSubscribes(calls[..|calls| - 1], o) + (if last.Subscribe? && last.observer == o then 1 else 0)
  }

  lemma {:induction false} CountSubscribesAppend(a: seq<TransportCall>, b: seq<TransportCall>, o: nat)
    ensures CountSubscribes(a + b, o) == CountSubscribes(a, o) + CountSubscribes(b, o)
    decreases |b|
  {
    if |b| == 0 {
      assert a + b == a;
    } else {
      assert (a + b)[..|a + b| - 1] == a + b[..|b| - 1];
      CountSubscribesAppend(a, b[..|b| - 1], o);
    }
  }

  /** Number of times `st` occurs in a state sequence. */
  function CountState(h: seq<State>, st: State): nat
    decreases |h|
  {
    if |h| == 0 then 0
    else CountState(h[..|h| - 1], st) + (if h[|h| - 1] == st then 1 else 0)
  }

  lemma CountStateSnoc(h: seq<State>, x: State, st: State)
    ensures CountState(h + [x], st) == CountState(h, st) + (if x == st then 1 else 0)
  {
    assert (h + [x])[..|h|] == h;
  }

  // ---------------------------------------------------------------------
  // The state BehaviorSubject
  // ---------------------------------------------------------------------

  /** The subscribe calls made when CONNECTED reaches the first `k`
      observers: each one's CONNECTED filter subscribes once to its own
      queue, in attach order. */
  function Resubscribe(obs: seq<Observer>, k: nat): (calls: seq<TransportCall>)
    requires k <= |obs|
    ensures |calls| == k
    ensures forall j | 0 <= j < k :: calls[j] == Subscribe(obs[j].destination, AutoAck, j)
  {
    if k == 0 then []
    else Resubscribe(obs, k - 1) + [Subscribe(obs[k - 1].destination, AutoAck, k - 1)]
  }

  /** Each of the first `k` observers gets exactly one subscribe call. */
  lemma {:induction false} CountResubscribe(obs: seq<Observer>, k: nat, o: nat)
    requires k <= |obs|
    ensures CountSubscribes(Resubscribe(obs, k), o) == (if o < k then 1 else 0)
    decreases k
  {
    if k > 0 {
      CountResubscribe(obs, k - 1, o);
      CountSubscribesAppend(Resubscribe(obs, k - 1), [Subscribe(obs[k - 1].destination, AutoAck, k - 1)], o);
      assert [Subscribe(obs[k - 1].destination, AutoAck, k - 1)][..0] == [];
    }
  }

  /** `state.next(st)`: the new value becomes current and reaches every
      attached observer, in attach order; only CONNECTED passes their
      filters, so only CONNECTED makes transport calls. */
  function Emit(s: Session, st: State): (r: Session)
    ensures r.history == s.history + [st]
    ensures r.calls == s.calls + (if st == Connected then Resubscribe(s.observers, |s.observers|) else [])
    ensures r.observers == s.observers && r.config == s.config && r.client == s.client
    ensures r.pendingDisconnects == s.pendingDisconnects && r.errors == s.errors
  {
    s.(history := s.history + [st],
       calls := s.calls + (if st == Connected then Resubscribe(s.observers, |s.observers|) else []))
  }

  /** What an emission means for the transport: on CONNECTED every
      attached observer gets exactly one new subscribe call, to its own
      queue with automatic acknowledgement, and nobody else gets any; on
      any other value no call is made. */
  lemma EmitSubscribes(s: Session, st: State)
    ensures var r := Emit(s, st);
      && |r.calls| == |s.calls| + (if st == Connected then |s.observers| else 0)
      && r.calls[..|s.calls|] == s.calls
      && (forall k | |s.calls| <= k < |r.calls| ::
            r.calls[k] == Subscribe(s.observers[k - |s.calls|].destination, AutoAck, k - |s.calls|))
      && (forall o: nat :: CountSubscribes(r.calls, o)
            == CountSubscribes(s.calls, o) + (if st == Connected && o < |s.observers| then 1 else 0))
  {
    var r := Emit(s, st);
    var added := if st == Connected then Resubscribe(s.observers, |s.observers|) else [];
    assert r.calls[..|s.calls|] == s.calls;
    forall o: nat
      ensures CountSubscribes(r.calls, o)
            == CountSubscribes(s.calls, o) + (if st == Connected && o < |s.observers| then 1 else 0)
    {
      CountSubscribesAppend(s.calls, added, o);
      if st == Connected {
        CountResubscribe(s.observers, |s.observers|, o);
      }
    }
  }

  // ---------------------------------------------------------------------
  // Configuration and connection
  // ---------------------------------------------------------------------

  /** `configure(config)`: keep the configuration and build the client;
      nothing is emitted and nothing is called on the transport. */
  function SetConfig(s: Session, cfg: StompConfig): (r: Session)
    ensures r.config == Some(cfg)
    ensures r.client == Some(Configure(cfg))
    ensures r.history == s.history && r.calls == s.calls && r.observers == s.observers
    ensures r.pendingDisconnects == s.pendingDisconnects && r.errors == s.errors
  {
    s.(config := Some(cfg), client := Some(Configure(cfg)))
  }

  /** `try_connect()`: ask the transport to connect with the configured
      credentials, then emit TRYING. */
  function TryConnect(s: Session): (r: Session)
    requires s.config.Some? && s.client.Some?
    ensures r.calls == s.calls + [Connect(s.config.value.user, s.config.value.pass)]
    ensures r.history == s.history + [Trying]
    ensures r.config == s.config && r.client == s.client && r.observers == s.observers
    ensures r.pendingDisconnects == s.pendingDisconnects && r.errors == s.errors
  {
    var called := s.(calls := s.calls + [Connect(s.config.value.user, s.config.value.pass)]);
    Emit(called, Trying)
  }

  /** The constructor's continuation once the configuration arrives:
      configure, then connect. The configuration promise settles once, so
      a second arrival changes nothing. */
  function OnConfig(s: Session, cfg: StompConfig): (r: Session)
    ensures s.config.Some? ==> r == s
    ensures s.config.None? ==>
              && r.config == Some(cfg)
              && r.client == Some(Configure(cfg))
              && r.calls == s.calls + [Connect(cfg.user, cfg.pass)]
              && r.history == s.history + [Trying]
              && r.observers == s.observers
              && r.pendingDisconnects == s.pendingDisconnects
              && r.errors == s.errors
  {
    if s.config.Some? then s else TryConnect(SetConfig(s, cfg))
  }

  /** `on_connect`: report CONNECTED. Every attached subscriber's filter
      sees it and subscribes its queue on the transport. */
  function OnConnect(s: Session): (r: Session)
    ensures r.history == s.history + [Connected]
    ensures r.calls == s.calls + Resubscribe(s.observers, |s.observers|)
    ensures r.observers == s.observers && r.config == s.config && r.client == s.client
    ensures r.pendingDisconnects == s.pendingDisconnects && r.errors == s.errors
  {
    Emit(s, Connected)
  }

  // ---------------------------------------------------------------------
  // Errors
  // ---------------------------------------------------------------------

  /** The text an error reports: a frame's body, or the plain string. */
  function ErrorText(e: ErrorPayload): (text: string)
    ensures e.FrameError? ==> text == e.frame.body
    ensures e.PlainError? ==> text == e.text
  {
    match e
    case FrameError(frame) => frame.body
    case PlainError(text) => text
  }

  /** A frame reports exactly what its body would report as a plain
      string. */
  lemma FrameReportsAsPlain(m: Message)
    ensures ErrorText(FrameError(m)) == ErrorText(PlainError(m.body))
  {
  }

  /** `on_error`: record the normalised error text; if the transport says
      the client is no longer connected, emit CLOSED, otherwise leave the
      state alone. */
  function OnError(s: Session, payload: ErrorPayload, connected: bool): (r: Session)
    ensures r.errors == s.errors + [ErrorText(payload)]
    ensures payload.FrameError? ==> r.errors[|s.errors|] == payload.frame.body
    ensures payload.PlainError? ==> r.errors[|s.errors|] == payload.text
    ensures connected ==> r.history == s.history
    ensures !connected ==> r.history == s.history + [Closed]
    ensures r.calls == s.calls && r.observers == s.observers
    ensures r.config == s.config && r.client == s.client
    ensures r.pendingDisconnects == s.pendingDisconnects
  {
    var logged := s.(errors := s.errors + [ErrorText(payload)]);
    if !connected then Emit(logged, Closed) else logged
  }

  // ---------------------------------------------------------------------
  // Disconnecting
  // ---------------------------------------------------------------------

  /** `disconnect()`: emit DISCONNECTING whatever the current state; only
      when a client exists and is connected, ask the transport to
      disconnect, leaving one completion callback pending. */
  function RequestDisconnect(s: Session, connected: bool): (r: Session)
    ensures r.history == s.history + [Disconnecting]
    ensures s.client.Some? && connected ==>
              r.calls == s.calls + [Disconnect] && r.pendingDisconnects == s.pendingDisconnects + 1
    ensures !(s.client.Some? && connected) ==>
              r.calls == s.calls && r.pendingDisconnects == s.pendingDisconnects
    ensures r.observers == s.observers && r.config == s.config && r.client == s.client
    ensures r.errors == s.errors
  {
    var announced := Emit(s, Disconnecting);
    if s.client.Some? && connected then
      announced.(calls := announced.calls + [Disconnect],
                 pendingDisconnects := announced.pendingDisconnects + 1)
    else announced
  }

  /** The disconnect-completion callback: emit CLOSED. */
  function DisconnectDone(s: Session): (r: Session)
    requires s.pendingDisconnects > 0
    ensures r.history == s.history + [Closed]
    ensures r.pendingDisconnects == s.pendingDisconnects - 1
    ensures r.calls == s.calls && r.observers == s.observers
    ensures r.config == s.config && r.client == s.client && r.errors == s.errors
  {
    Emit(s.(pendingDisconnects := s.pendingDisconnects - 1), Closed)
  }

  // ---------------------------------------------------------------------
  // Publishing and subscribing
  // ---------------------------------------------------------------------

  /** `publish(queue, message)`: one send with empty headers, whatever the
      connection state; it throws only when no client has been built. */
  function Publish(s: Session, destination: string, body: Option<string>): (r: Result<Session, Fault>)
    ensures r.Failure? <==> s.client.None?
    ensures r.Success? ==>
              && r.value.calls == s.calls + [Send(destination, map[], body)]
              && r.value.history == s.history
              && r.value.observers == s.observers
              && r.value.pendingDisconnects == s.pendingDisconnects
              && r.value.config == s.config && r.value.client == s.client
              && r.value.errors == s.errors
  {
    if s.client.None? then Failure(ClientUndefined)
    else Success(s.(calls := s.calls + [Send(destination, map[], body)]))
  }

  /** A subscriber attaches to the observable `subscribe(queue)` returned.
      Its CONNECTED filter subscribes to the state BehaviorSubject, which
      replays the current value at once: if that is CONNECTED the
      transport subscription is made straight away. */
  function Attach(s: Session, destination: string): (r: Session)
    ensures |r.observers| == |s.observers| + 1
    ensures r.observers[..|s.observers|] == s.observers
    ensures r.observers[|s.observers|] == Observer(destination, |s.history| - 1, [])
    ensures r.calls == s.calls + (if Current(s) == Connected then [Subscribe(destination, AutoAck, |s.observers|)] else [])
    ensures r.history == s.history
    ensures r.config == s.config && r.client == s.client
    ensures r.pendingDisconnects == s.pendingDisconnects && r.errors == s.errors
  {
    var id := |s.observers|;
    var replayed := if Current(s) == Connected then [Subscribe(destination, AutoAck, id)] else [];
    s.(observers := s.observers + [Observer(destination, |s.history| - 1, [])],
       calls := s.calls + replayed)
  }

  /** The transport fires the message callback registered by the call at
      index `k`: the message goes to that subscription's observer and to
      no one else. A callback that was never registered cannot fire. */
  function Deliver(s: Session, k: nat, msg: Message): (r: Session)
    ensures |r.observers| == |s.observers|
    ensures k < |s.calls| && s.calls[k].Subscribe? && s.calls[k].observer < |s.observers| ==>
              var o := s.calls[k].observer;
              && r.observers[o].received == s.observers[o].received + [msg]
              && r.observers[o].destination == s.observers[o].destination
              && r.observers[o].attachedAt == s.observers[o].attachedAt
              && forall i | 0 <= i < |s.observers| && i != o :: r.observers[i] == s.observers[i]
    ensures !(k < |s.calls| && s.calls[k].Subscribe? && s.calls[k].observer < |s.observers|) ==> r == s
    ensures r.history == s.history && r.calls == s.calls
    ensures r.config == s.config && r.client == s.client
    ensures r.pendingDisconnects == s.pendingDisconnects && r.errors == s.errors
  {
    if k < |s.calls| && s.calls[k].Subscribe? && s.calls[k].observer < |s.observers| then
      var o := s.calls[k].observer;
      var ob := s.observers[o];
      s.(observers := s.observers[o := ob.(received := ob.received + [msg])])
    else s
  }

  // ---------------------------------------------------------------------
  // Event traces
  // ---------------------------------------------------------------------

  /** Everything that can happen to the service: the configuration
      arriving, the transport's callbacks (with its `connected` flag where
      the service reads it), and the public calls. */
  datatype Event =
    | ConfigArrived(cfg: StompConfig)
    | ConnectOk
    | TransportError(payload: ErrorPayload, connected: bool)
    | DisconnectRequested(connected: bool)
    | DisconnectComplete
    | PublishRequested(destination: string, body: Option<string>)
    | SubscribeRequested(destination: string)
    | MessageArrived(subscription: nat, msg: Message)

  /** The reaction to one event. Transport callbacks fire only once they
      have been registered: connect and error callbacks by `try_connect`,
      a completion callback by a transport disconnect. A publish that
      throws leaves the service unchanged. */
  function Step(s: Session, e: Event): Session {
    match e
    case ConfigArrived(cfg) => OnConfig(s, cfg)
    case ConnectOk => if s.client.Some? then OnConnect(s) else s
    case TransportError(payload, connected) => if s.client.Some? then OnError(s, payload, connected) else s
    case DisconnectRequested(connected) => RequestDisconnect(s, connected)
    case DisconnectComplete => if s.pendingDisconnects > 0 then DisconnectDone(s) else s
    case PublishRequested(destination, body) =>
      (match Publish(s, destination, body)
       case Success(r) => r
       case Failure(_) => s)
    case SubscribeRequested(destination) => Attach(s, destination)
    case MessageArrived(k, msg) => Deliver(s, k, msg)
  }

  /** The session after a whole trace of events. */
  function Run(s: Session, trace: seq<Event>): Session
    decreases |trace|
  {
    if |trace| == 0 then s else Run(Step(s, trace[0]), trace[1..])
  }
}
